=== FILE: README.md ===
# Random bookstore: page generation and row expansion

This project models the two pieces of logic in the random bookstore's
`src/App.js` that carry its promises:

- `generateBooks(seed, language, page, likes, reviews)`. It seeds faker with
  `seed + page`, then builds 20 book records. Each record gets:
  - a title, an author, a publisher and a 13-digit ISBN;
  - `floor(reviews)` reviews, plus possibly one more;
  - a likes count rounded up or down.
- The updater behind `toggleRowExpansion(index)`. It removes every
  occurrence of the key from the list of expanded rows, or appends the key
  when it is absent. The key is the row's position in the loaded records,
  not the record's `index` field.

Files:

- `jsmath.dfy` (module `JsMath`): the JavaScript number operations the
  generator applies to the means, written over `real`. These are
  `Math.floor`, `Math.ceil` and `x % 1`, whose sign follows `x`.
- `decimal.dfy` (module `Decimal`): `Number.prototype.toString` for
  integers below 10^21 in magnitude, and reading a decimal string back.
- `books.dfy` (module `Books`): the records, the generator as a method
  (`GenerateBooks`), and a record-by-record description of its result
  (`Page`).
- `pages.dfy` (module `Pages`): properties of a page and of consecutive
  pages.
- `expansion.dfy` (module `Expansion`): the expanded-rows updater.

Faker and `Math.random` are oracles:

- A `Faker` value stands for faker after `faker.seed(s)` and
  `faker.locale = language`. Its n-th call returns a value that depends on
  the locale, the stream seed `s`, the position `n` and the kind of call.
- A `RandomStream` gives the successive values of `Math.random()` during
  one `generateBooks` call. Each value is in `[0, 1)`.

Because faker positions are explicit, the model can say how much of the
seeded stream each record consumes: `4 + 2 * (its review count)` calls.

Three behaviours of the code shape the model:

- **The coins come from unseeded `Math.random()`.** Both the extra review
  and the rounding of likes use it (`src/App.js:27`, `src/App.js:41`).
  Likes therefore depend on it whenever the likes mean is positive and
  not whole. When the likes mean is whole, every record's likes equal it;
  when it is negative, every record's likes are its floor; either way the
  likes do not depend on `Math.random()` (`Books.LikesRule`). When the
  reviews mean is positive and not whole, the review count depends on it
  too, and so does every later faker draw: `Pages.ExtraReviewDependsOnRandom`
  and `Pages.LikesDependOnRandom` exhibit both. When the reviews mean is
  whole or not positive, the seed determines a page's non-likes content
  (`Pages.SameStreamSameContent`); if the likes mean is also whole or
  negative, it determines the likes as well (`Pages.SameStreamSameRandom`
  together with `Books.LikesRule`).
- **The extra-review coin is not always drawn.** `reviews % 1 > 0 &&
  Math.random() < …` short-circuits, so no coin is drawn when the reviews
  mean is whole. The likes coin is always drawn, after the reviews.
- **Parameters are not validated.** A negative likes mean yields its floor,
  because `Math.random()` is never below a negative remainder. A reviews
  mean of zero or less yields no reviews.

## Model

| member | source | states |
|---|---|---|
| JsMath.Floor | src/App.js:20 | `Math.floor(x)` is the greatest integer not above `x` |
| JsMath.Ceil | src/App.js:41 | `Math.ceil(x)` is the least integer not below `x`; it equals the floor exactly when `x` is whole |
| JsMath.Rem1 | src/App.js:27 | `x % 1` differs from `x` by a whole number, lies in [0, 1) for non-negative `x` and in (-1, 0] for negative `x`, so it is the fractional part with the sign of `x`; it is zero exactly when `x` is whole |
| Decimal.Render | src/App.js:16 | `toString` of an integer below 10^21 in magnitude: a non-negative one is all digits; a negative one is a minus sign followed by digits; `Decimal.RenderRoundTrip` pins which digits |
| Decimal.RenderRoundTrip | src/App.js:16 | the digits of `toString` are the shortest ones: non-empty, with no leading zero except in "0" itself; read back, they give the integer, or its magnitude after the minus sign of a negative one |
| Decimal.DigitsRoundTrip | src/App.js:16 | reading back the decimal digits of a natural number gives the number |
| Decimal.ThirteenDigitRendering | src/App.js:16 | any integer in [10^12, 10^13 - 1] renders as 13 digits with a non-zero first digit, and reads back as itself |
| Books.RecordCalls | src/App.js:13-31 | a record with k reviews makes 4 + 2k faker calls |
| Books.ReviewsFrom | src/App.js:20-25 | drawing n reviews yields n reviews |
| Books.ReviewCount | src/App.js:19-33 | no reviews for a mean of zero or less; otherwise floor or floor + 1; exactly the floor for a whole mean; for a fractional mean the extra review comes exactly when the random value is below the fraction |
| Books.LikesRule | src/App.js:41 | likes are the floor or the ceiling of the mean; exactly the mean when whole; for a fractional mean, the ceiling exactly when the random value is below `likes % 1`, hence always the floor when the mean is negative |
| Books.DrawReviews | src/App.js:18-33 | the review loop and the extra-review coin produce the described reviews; they advance faker by two calls per review, and `Math.random` by one call exactly when the mean is fractional |
| Books.DrawBook | src/App.js:13-43 | one loop iteration draws title, author, publisher and ISBN at the next four faker positions, then the reviews, then the likes coin; it advances both streams by what the record consumed |
| Books.Page | src/App.js:6-47 | a page holds twenty records; `Books.GenerateBooks` is proved to return it, and the `Pages` lemmas describe each record |
| Books.GenerateBooks | src/App.js:6-47 | the generator returns exactly the page described for stream seed `seed + page` |
| Books.OutlinesAt | src/App.js:12-44 | the random decisions for record i read the `Math.random` values after those of records 0..i-1, and the record starts at the faker position where the previous one ended |
| Books.OutlinesChained | src/App.js:12-44 | every record's faker calls start where the previous record's calls ended |
| Pages.PageBounds | src/App.js:36-41 | every page has 20 records; record j has index j + 1 + 20 * page; likes are floor or ceiling of the mean (exact when whole); the review count is floor or floor + 1 (exactly floor when the mean is whole, zero when not positive) |
| Pages.PageIndices | src/App.js:36 | a page's indices count up by one from 20 * page + 1 |
| Pages.CallsBefore | src/App.js:12-33 | record j starts at the faker position equal to the calls made by records 0..j-1 |
| Pages.ReviewsDrawn | src/App.js:20-31 | the fields of n reviews are, in order, the results of n reviewer-name and sentence call pairs |
| Pages.MakeBookDrawn | src/App.js:13-31 | a record's title, author, publisher, ISBN and review fields are, in that order, the faker results of its call sequence |
| Pages.PageDrawOrder | src/App.js:12-33 | every record of a page is read off the seeded stream in source order, starting where the previous records' calls ended |
| Pages.PageIsbns | src/App.js:16 | when faker's number draws stay in the requested bounds, every ISBN is a 13-digit string with no leading zero whose value is in the bounds |
| Pages.OutlinesIgnoreRandom | src/App.js:27 | when the reviews mean is whole or not positive, review counts and faker positions do not depend on `Math.random` |
| Pages.SameStreamSameContent | src/App.js:7 | two pages seeded alike have the same non-likes content when the reviews mean is whole or not positive; their indices differ by 20 per page |
| Pages.SameStreamSameRandom | src/App.js:7 | with the same random values, two pages seeded alike differ only in index |
| Pages.SeedPageShift | src/App.js:7 | page p of seed s and page p - 1 of seed s + 1 have the same non-likes content when the reviews mean is whole or not positive; indices differ by 20 |
| Pages.ExtraReviewDependsOnRandom | src/App.js:27-32 | with a fractional reviews mean, a low random value gives the first record one more review than a high one, and moves the second record's title two faker positions later |
| Pages.LikesDependOnRandom | src/App.js:41 | with a positive fractional likes mean, a low random value gives the ceiling and a high one the floor |
| Pages.PagesUpTo | src/App.js:63 | after loading pages 0..k, the last twenty records are page k, appended at the end |
| Pages.PagesUpToExtends | src/App.js:63 | loading the next page keeps the records already loaded, in front |
| Pages.AccumulatedIndices | src/App.js:63 | appending pages whose indices continue from the previous pages gives indices 1..20(k+1) |
| Pages.PagesUpToIndices | src/App.js:61-64 | pages 0..k of one seed, appended in page order, carry indices exactly 1..20(k+1), in order, with no gaps or repeats |
| Expansion.RemoveAll | src/App.js:85 | the filter leaves no occurrence of the key, keeps every other key present, and never lengthens the list |
| Expansion.Toggle | src/App.js:83-87 | the key is present afterwards exactly when it was absent before; other keys' presence is unchanged; an absent key is appended at the end |
| Expansion.RemoveAllAppend | src/App.js:85 | filtering distributes over concatenation, so kept keys keep their order |
| Expansion.RemoveAllAbsent | src/App.js:85 | filtering out an absent key leaves the list unchanged |
| Expansion.RemoveAllCounts | src/App.js:85 | filtering removes all occurrences of the key and keeps every other key as often as it occurred |
| Expansion.RemoveAllNoDups | src/App.js:85 | filtering keeps a duplicate-free list duplicate-free |
| Expansion.ToggleOthersUnchanged | src/App.js:83-87 | with the key filtered out, the list before and after a toggle is identical |
| Expansion.ToggleKeepsNoDups | src/App.js:83-87 | toggling keeps a duplicate-free list duplicate-free |
| Expansion.ToggleTwiceMembership | src/App.js:83-87 | toggling a key twice restores which keys are present |
| Expansion.ToggleTwiceIdentity | src/App.js:83-87 | toggling a key twice restores the list exactly when the key was absent, or occurred once as the last element |
| Expansion.ToggleAll | src/App.js:83-87 | after a run of clicks, a row never clicked is expanded exactly when it was before |
| Expansion.ClicksFromEmpty | src/App.js:56 | from the initial empty list, a row is expanded exactly when it was clicked an odd number of times, and no row is listed twice |

## Left out

- React state and effects (`src/App.js:49-81`) are not modelled. This covers the reset when a parameter changes, `loadBooks` reading a stale `page`, and the page effect firing again after `setPage(0)`. Accumulation is modelled only as the intended concatenation of pages 0..k, each loaded once and in order (`Pages.PagesUpTo`).
- Scrolling, the JSX rendering, the region map and `handleGenerateSeed` are user-interface wiring.
- Faker's internals are left out: which strings it produces for a locale, and how many underlying draws each call consumes. A faker result depends here only on the locale, the stream seed, the call's position and its kind. The comparisons between runs (the seed/page shift) only compare runs with identical call sequences, so they do not depend on this simplification.
- The ISBN draw's range is a precondition of `Pages.PageIsbns` (faker's documented behaviour), not a fact proved about faker.
- The distribution of `Math.random()` is left out: it is a stream of values in [0, 1). Statistical claims, such as half the records having 6 likes for a mean of 5.5, cannot be stated.
- `Number(seed)` parsing and NaN are left out, as is a fractional or non-numeric seed. The seed is an integer, and `seed + page` is integer addition.
- Floating point is left out: the likes and reviews means are exact reals. Rounding effects of IEEE doubles in `%`, `Math.floor` and `Math.ceil` are not modelled.
- `Decimal.Render`: renders every integer as plain digits. JavaScript's `toString` switches to exponent form (`"1e+21"`) from 10^21 on, so the model matches it only below 10^21 in magnitude. Every ISBN draw is far below that bound.
- `Pages.ExtraReviewDependsOnRandom`: shows that the faker positions differ, not that the drawn titles differ, because faker is an arbitrary oracle here.

=== FILE: books.dfy ===
/** One page of synthetic book records, as `generateBooks(seed, language,
    page, likes, reviews)` builds it.

    The two sources of variation are passed in as oracles:
    - `Faker` stands for the faker library after `faker.seed(seed + page)` and
      `faker.locale = language`: the n-th faker call made after seeding
      returns a value determined by the locale, the stream seed, n and the
      kind of call. Counting positions makes visible how much of the stream
      each record consumes.
    - `RandomStream` stands for the unseeded `Math.random`: the n-th call made
      during one generateBooks call returns the n-th value of the stream.

    `Page` describes the page record by record, each from the faker position
    and the `Math.random()` values it starts at; the method `GenerateBooks`
    is the generation loop itself and is proved to produce `Page`. */
module Books {
  import opened JsMath
  import opened Decimal

  /** Records per page: the bound of the generation loop and the page stride of indices. */
  const BooksPerPage: nat := 20

  /** Bounds of the ISBN draw `faker.number.int({min, max})`. */
  const IsbnMin: int := 1_000_000_000_000
  const IsbnMax: int := 9_999_999_999_999

  /** The faker calls generateBooks makes. */
  datatype Call =
    | ProductName   // faker.commerce.productName()
    | FullName      // faker.name.fullName()
    | CompanyName   // faker.company.name()
    | IsbnNumber    // faker.number.int({min: IsbnMin, max: IsbnMax})
    | Sentence      // faker.lorem.sentence()

  /** A seeded faker: `text(locale, seed, n, call)` is the string the n-th call
      returns when it is a text call, `number(locale, seed, n)` the integer it returns
      when it is the ISBN call. */
  datatype Faker = Faker(text: (string, int, nat, Call) -> string, number: (string, int, nat) -> int)

  /** A value `Math.random()` can return. */
  type RandomValue = r: real | 0.0 <= r < 1.0

  /** The successive values `Math.random()` returns. */
  type RandomStream = nat -> RandomValue

  datatype Review = Review(reviewer: string, text: string)

  datatype Book = Book(
    index: int,
    isbn: string,
    title: string,
    author: string,
    publisher: string,
    likes: int,
    reviews: seq<Review>)

  /** The calls made by `n` reviews: a reviewer name then a sentence, per review. */
  function ReviewCalls(n: nat): (r: seq<Call>)
    ensures |r| == 2 * n
  {
    if n == 0 then [] else ReviewCalls(n - 1) + [FullName, Sentence]
  }

  /** The faker calls one record with `k` reviews makes, in order:
      title, author, publisher, ISBN, then the reviews. */
  function RecordCalls(k: nat): (r: seq<Call>)
    ensures |r| == 4 + 2 * k
  {
    [ProductName, FullName, CompanyName, IsbnNumber] + ReviewCalls(k)
  }

  /** The number of reviews across a run of records. */
  function TotalReviews(books: seq<Book>): nat {
    if |books| == 0 then 0
    else TotalReviews(books[..|books| - 1]) + |books[|books| - 1].reviews|
  }

  /** The faker calls a run of records makes. */
  function CallsOf(books: seq<Book>): nat {
    4 * |books| + 2 * TotalReviews(books)
  }

  /** One review drawn at faker position `n`: reviewer, then text. */
  function DrawReview(f: Faker, lang: string, s: int, n: nat): Review {
    Review(f.text(lang, s, n, FullName), f.text(lang, s, n + 1, Sentence))
  }

  /** `n` reviews drawn one after another from faker position `p` on. */
  function ReviewsFrom(f: Faker, lang: string, s: int, p: nat, n: nat): (r: seq<Review>)
    ensures |r| == n
  {
    if n == 0 then [] else ReviewsFrom(f, lang, s, p, n - 1) + [DrawReview(f, lang, s, p + 2 * (n - 1))]
  }

  /** The reviews mean draws a random extra review: it is positive and not a whole number. */
  predicate Fractional(reviews: real) {
    reviews > 0.0 && Rem1(reviews) > 0.0
  }

  /** The review counts a record may receive for a given reviews mean. */
  predicate ReviewCountAllowed(n: nat, reviews: real) {
    if reviews <= 0.0 then n == 0
    else n == Floor(reviews) || (Fractional(reviews) && n == Floor(reviews) + 1)
  }

  /** The likes values a record may receive for a given likes mean. */
  predicate LikesAllowed(v: int, likes: real) {
    v == Floor(likes) || v == Ceil(likes)
  }

  /** The review count of one record: `Math.floor(reviews)` when `reviews > 0`,
      plus one when `reviews % 1 > 0` and the `Math.random()` value `u` falls
      below `reviews % 1`. */
  function ReviewCount(reviews: real, u: RandomValue): (n: nat)
    ensures ReviewCountAllowed(n, reviews)
    ensures IsIntegral(reviews) && reviews > 0.0 ==> n == Floor(reviews)
    ensures Fractional(reviews) ==> (n == Floor(reviews) + 1 <==> u < Rem1(reviews))
  {
    if reviews > 0.0 then
      Floor(reviews) + (if Rem1(reviews) > 0.0 && u < Rem1(reviews) then 1 else 0)
    else 0
  }

  /** The likes of one record: `Math.ceil(likes)` when the `Math.random()`
      value `u` falls below `likes % 1`, `Math.floor(likes)` otherwise. */
  function LikesRule(likes: real, u: RandomValue): (r: int)
    ensures LikesAllowed(r, likes)
    ensures IsIntegral(likes) ==> r as real == likes
    ensures likes < 0.0 ==> r == Floor(likes)
    ensures !IsIntegral(likes) ==> (r == Ceil(likes) <==> u < Rem1(likes))
  {
    if u < Rem1(likes) then Ceil(likes) else Floor(likes)
  }

  /** `Math.random()` calls one record makes: two when the reviews mean is fractional. */
  function RandomCallsPerBook(reviews: real): nat {
    if Fractional(reviews) then 2 else 1
  }

  /** `Math.random()` calls made before loop iteration `i`: one per record for
      likes, and one more per record when the reviews mean is fractional. */
  function RandomCallsBefore(reviews: real, i: nat): nat {
    if Fractional(reviews) then 2 * i else i
  }

  /** The record whose faker draws start at position `p`, with `n` reviews. */
  function MakeBook(f: Faker, lang: string, s: int, index: int, p: nat, n: nat, likes: int): Book {
    Book(
      index,
      Render(f.number(lang, s, p + 3)),
      f.text(lang, s, p, ProductName),
      f.text(lang, s, p + 1, FullName),
      f.text(lang, s, p + 2, CompanyName),
      likes,
      ReviewsFrom(f, lang, s, p + 4, n))
  }

  /** The value faker call `call` returns at position `n`; the ISBN number is
      rendered as its decimal string, as `toString()` does. */
  function Draw(f: Faker, lang: string, s: int, n: nat, call: Call): string {
    if call == IsbnNumber then Render(f.number(lang, s, n)) else f.text(lang, s, n, call)
  }

  /** The values of the calls `plan`, made one after another from position `p` on. */
  function Draws(f: Faker, lang: string, s: int, p: nat, plan: seq<Call>): (r: seq<string>)
    ensures |r| == |plan|
  {
    if |plan| == 0 then []
    else Draws(f, lang, s, p, plan[..|plan| - 1]) + [Draw(f, lang, s, p + |plan| - 1, plan[|plan| - 1])]
  }

  /** The strings of a run of reviews in the order they were drawn. */
  function ReviewFields(reviews: seq<Review>): (r: seq<string>)
    ensures |r| == 2 * |reviews|
  {
    if |reviews| == 0 then []
    else
      var last := reviews[|reviews| - 1];
      ReviewFields(reviews[..|reviews| - 1]) + [last.reviewer, last.text]
  }

  /** The strings of a record in the order they were drawn. */
  function Fields(b: Book): seq<string> {
    [b.title, b.author, b.publisher, b.isbn] + ReviewFields(b.reviews)
  }

  /** Record `b` holds, field by field, the values of its calls `RecordCalls`
      made one after another from faker position `p` on. */
  predicate DrawnAt(f: Faker, lang: string, s: int, p: nat, b: Book) {
    Fields(b) == Draws(f, lang, s, p, RecordCalls(|b.reviews|))
  }

  /** What one record's draws come to before any faker value is read: the
      faker position its draws start at, and the review count and likes
      `Math.random()` decides. */
  datatype Outline = Outline(start: nat, count: nat, likes: int)

  /** The faker position after the record `o` outlines. */
  function End(o: Outline): nat {
    o.start + |RecordCalls(o.count)|
  }

  /** The outline of record `i` when its draws start at `start`: its review
      count is decided by its first `Math.random()` value, its likes by its last. */
  function OutlineAt(rnd: RandomStream, likes: real, reviews: real, i: nat, start: nat): Outline {
    var before := RandomCallsBefore(reviews, i);
    Outline(start,
            ReviewCount(reviews, rnd(before)),
            LikesRule(likes, rnd(before + RandomCallsPerBook(reviews) - 1)))
  }

  /** The faker position record `i` starts at: where record `i - 1` ended. */
  function StartOf(outlines: seq<Outline>, i: nat): nat
    requires i <= |outlines|
  {
    if i == 0 then 0 else End(outlines[i - 1])
  }

  /** The outlines of records `0 .. n - 1`, each starting where the one before ended. */
  function Outlines(rnd: RandomStream, likes: real, reviews: real, n: nat): (r: seq<Outline>)
    ensures |r| == n
  {
    if n == 0 then []
    else
      var before := Outlines(rnd, likes, reviews, n - 1);
      before + [OutlineAt(rnd, likes, reviews, n - 1, StartOf(before, n - 1))]
  }

  /** Record `i` of page `page`, drawn from the faker stream seeded with `s` as its outline says. */
  function BookAt(f: Faker, lang: string, s: int, page: int, outlines: seq<Outline>, i: nat): Book
    requires i < |outlines|
  {
    MakeBook(f, lang, s, i + 1 + page * BooksPerPage, outlines[i].start, outlines[i].count, outlines[i].likes)
  }

  /** Records `0 .. n - 1` of the page, in order. */
  function FirstBooks(f: Faker, lang: string, s: int, page: int, outlines: seq<Outline>, n: nat): (books: seq<Book>)
    requires n <= |outlines|
    ensures |books| == n
  {
    if n == 0 then [] else FirstBooks(f, lang, s, page, outlines, n - 1) + [BookAt(f, lang, s, page, outlines, n - 1)]
  }

  /** The twenty records of page `page` drawn from the faker stream seeded
      with `s`; `generateBooks(seed, language, page, likes, reviews)` returns
      the page for `s == seed + page`. */
  function Page(
    f: Faker, rnd: RandomStream, s: int, lang: string, page: int, likes: real, reviews: real)
    : (books: seq<Book>)
    ensures |books| == BooksPerPage
  {
    FirstBooks(f, lang, s, page, Outlines(rnd, likes, reviews, BooksPerPage), BooksPerPage)
  }

  /** The reviews of one record, drawn from faker position `pos` on; `rand`
      counts the `Math.random()` calls made so far. */
  method DrawReviews(f: Faker, rnd: RandomStream, lang: string, s: int, reviews: real, pos: nat, rand: nat)
    returns (bookReviews: seq<Review>, pos': nat, rand': nat)
    ensures bookReviews == ReviewsFrom(f, lang, s, pos, ReviewCount(reviews, rnd(rand)))
    ensures pos' == pos + 2 * |bookReviews|
    ensures rand' == rand + RandomCallsPerBook(reviews) - 1
  {
    bookReviews := [];
    pos', rand' := pos, rand;
    if reviews > 0.0 {
      for r := 0 to Floor(reviews)
        invariant bookReviews == ReviewsFrom(f, lang, s, pos, r)
        invariant pos' == pos + 2 * r
      {
        bookReviews := bookReviews + [Review(f.text(lang, s, pos', FullName), f.text(lang, s, pos' + 1, Sentence))];
        pos' := pos' + 2;
      }
      if Rem1(reviews) > 0.0 {
        var u := rnd(rand');
        rand' := rand' + 1;
        if u < Rem1(reviews) {
          bookReviews := bookReviews + [Review(f.text(lang, s, pos', FullName), f.text(lang, s, pos' + 1, Sentence))];
          pos' := pos' + 2;
        }
      }
    }
  }

  /** One iteration of the generation loop: record `i`, drawn from faker
      position `pos` and `Math.random()` call `rand` on. */
  method DrawBook(
    f: Faker, rnd: RandomStream, lang: string, s: int, page: int,
    likes: real, reviews: real, i: nat, pos: nat, rand: nat)
    returns (book: Book, pos': nat, rand': nat)
    ensures book == MakeBook(f, lang, s, i + 1 + page * BooksPerPage, pos,
                             ReviewCount(reviews, rnd(rand)),
                             LikesRule(likes, rnd(rand + RandomCallsPerBook(reviews) - 1)))
    ensures pos' == pos + |RecordCalls(|book.reviews|)|
    ensures rand' == rand + RandomCallsPerBook(reviews)
  {
    var title := f.text(lang, s, pos, ProductName);
    var author := f.text(lang, s, pos + 1, FullName);
    var publisher := f.text(lang, s, pos + 2, CompanyName);
    var isbn := Render(f.number(lang, s, pos + 3));
    var bookReviews;
    bookReviews, pos', rand' := DrawReviews(f, rnd, lang, s, reviews, pos + 4, rand);
    var u := rnd(rand');
    rand' := rand' + 1;
    var bookLikes := if u < Rem1(likes) then Ceil(likes) else Floor(likes);
    book := Book(i + 1 + page * BooksPerPage, isbn, title, author, publisher, bookLikes, bookReviews);
  }

  /** Each outline starts where the one before it ended. */
  predicate Chained(outlines: seq<Outline>) {
    forall i :: 0 <= i < |outlines| ==> outlines[i].start == StartOf(outlines, i)
  }

  /** The outline of record `j` among the first `n`. */
  lemma {:induction false} OutlinesAt(rnd: RandomStream, likes: real, reviews: real, n: nat, j: nat)
    requires j < n
    ensures var outlines := Outlines(rnd, likes, reviews, n);
      outlines[j] == OutlineAt(rnd, likes, reviews, j, StartOf(outlines, j))
  {
    if j < n - 1 {
      OutlinesAt(rnd, likes, reviews, n - 1, j);
    }
  }

  /** The outlines are chained: each starts where the one before it ended. */
  lemma {:induction false} OutlinesChained(rnd: RandomStream, likes: real, reviews: real, n: nat)
    ensures Chained(Outlines(rnd, likes, reviews, n))
  {
    forall j | 0 <= j < n
      ensures Outlines(rnd, likes, reviews, n)[j].start == StartOf(Outlines(rnd, likes, reviews, n), j)
    {
      OutlinesAt(rnd, likes, reviews, n, j);
    }
  }

  /** A record drawn where the records before record `i` stopped, with the
      `Math.random()` values that follow theirs, is record `i`. */
  lemma NextBook(
    f: Faker, rnd: RandomStream, lang: string, s: int, page: int, likes: real, reviews: real,
    outlines: seq<Outline>, i: nat, pos: nat, rand: nat, book: Book, pos': nat, rand': nat)
    requires i < |outlines| && outlines[i] == OutlineAt(rnd, likes, reviews, i, StartOf(outlines, i))
    requires pos == StartOf(outlines, i) && rand == RandomCallsBefore(reviews, i)
    requires book == MakeBook(f, lang, s, i + 1 + page * BooksPerPage, pos,
                              ReviewCount(reviews, rnd(rand)),
                              LikesRule(likes, rnd(rand + RandomCallsPerBook(reviews) - 1)))
    requires pos' == pos + |RecordCalls(|book.reviews|)|
    requires rand' == rand + RandomCallsPerBook(reviews)
    ensures book == BookAt(f, lang, s, page, outlines, i)
    ensures pos' == StartOf(outlines, i + 1)
    ensures rand' == RandomCallsBefore(reviews, i + 1)
  {
  }

  /** generateBooks: seeds the faker stream with `seed + page`, then draws
      twenty records in order. */
  method GenerateBooks(
    f: Faker, rnd: RandomStream, seed: int, lang: string, page: int, likes: real, reviews: real)
    returns (books: seq<Book>)
    ensures books == Page(f, rnd, seed + page, lang, page, likes, reviews)
  {
    var s := seed + page;
    ghost var outlines := Outlines(rnd, likes, reviews, BooksPerPage);
    var pos: nat := 0;   // faker calls made so far
    var rand: nat := 0;  // Math.random() calls made so far
    books := [];
    for i := 0 to BooksPerPage
      invariant books == FirstBooks(f, lang, s, page, outlines, i)
      invariant pos == StartOf(outlines, i)
      invariant rand == RandomCallsBefore(reviews, i)
    {
      var book, pos', rand' := DrawBook(f, rnd, lang, s, page, likes, reviews, i, pos, rand);
      OutlinesAt(rnd, likes, reviews, BooksPerPage, i);
      NextBook(f, rnd, lang, s, page, likes, reviews, outlines, i, pos, rand, book, pos', rand');
      assert FirstBooks(f, lang, s, page, outlines, i + 1) == books + [book];
      books, pos, rand := books + [book], pos', rand';
    }
    assert Page(f, rnd, s, lang, page, likes, reviews) == FirstBooks(f, lang, s, page, outlines, BooksPerPage);
  }
}

=== FILE: decimal.dfy ===
/** Decimal rendering of integers, as `Number.prototype.toString()` produces
    it for the integers generateBooks turns into ISBN strings, together with
    the digit-string reading that inverts it. */
module Decimal {

  /** 10 raised to `k`. */
  function Pow10(k: nat): (r: nat)
    ensures r >= 1
  {
    if k == 0 then 1 else 10 * Pow10(k - 1)
  }

  predicate IsDigit(c: char) {
    '0' <= c <= '9'
  }

  /** True if every character of `s` is a decimal digit. */
  predicate AllDigits(s: string) {
    forall i :: 0 <= i < |s| ==> IsDigit(s[i])
  }

  function DigitChar(d: nat): (c: char)
    requires d < 10
    ensures IsDigit(c)
  {
    ('0' as int + d) as char
  }

  function DigitValue(c: char): (d: nat)
    requires IsDigit(c)
    ensures d < 10
  {
    c as int - '0' as int
  }

  /** The shortest decimal digit string of `n`, most significant digit first. */
  function Digits(n: nat): (s: string)
    ensures |s| >= 1
    ensures AllDigits(s)
    ensures n > 0 ==> s[0] != '0'
    decreases n
  {
    if n < 10 then [DigitChar(n)] else Digits(n / 10) + [DigitChar(n % 10)]
  }

  /** `n.toString()` for an integer `n` with fewer than 22 digits: a minus
      sign for negatives, then the digits. JavaScript writes larger
      magnitudes in exponent form, which this does not model. */
  function Render(n: int): (s: string)
    ensures n >= 0 ==> AllDigits(s)
    ensures n < 0 ==> |s| >= 2 && s[0] == '-' && AllDigits(s[1..])
  {
    if n < 0 then "-" + Digits(-n) else Digits(n)
  }

  /** The number a digit string denotes, most significant digit first. */
  function Value(s: string): (v: nat)
    requires AllDigits(s)
    decreases |s|
  {
    if |s| == 0 then 0 else 10 * Value(s[..|s| - 1]) + DigitValue(s[|s| - 1])
  }

  /** Reading the rendering of `n` back gives `n`. */
  lemma {:induction false} DigitsRoundTrip(n: nat)
    ensures Value(Digits(n)) == n
    decreases n
  {
    var s := Digits(n);
    if n >= 10 {
      DigitsRoundTrip(n / 10);
      assert s[..|s| - 1] == Digits(n / 10);
      assert DigitValue(s[|s| - 1]) == n % 10;
    }
  }

  /** A number with `k` significant digits renders to exactly `k` characters. */
  lemma {:induction false} DigitsLength(n: nat, k: nat)
    requires k >= 1
    requires Pow10(k - 1) <= n < Pow10(k)
    ensures |Digits(n)| == k
    decreases k
  {
    if k > 1 {
      assert n >= 10;
      assert Pow10(k - 2) <= n / 10 < Pow10(k - 1);
      DigitsLength(n / 10, k - 1);
    } else {
      assert n < 10;
    }
  }

  /** Reading `n.toString()` back gives `n`: the digits of a non-negative
      `n`, and the digits after the minus sign of a negative one. Those
      digits are the shortest ones: no leading zero, except in "0" itself. */
  lemma RenderRoundTrip(n: int)
    ensures n >= 0 ==> Value(Render(n)) == n
    ensures n < 0 ==> Value(Render(n)[1..]) == -n
    ensures n >= 0 ==> |Render(n)| >= 1 && (Render(n)[0] == '0' ==> Render(n) == "0")
    ensures n < 0 ==> Render(n)[1] != '0'
  {
    if n >= 0 {
      DigitsRoundTrip(n);
    } else {
      DigitsRoundTrip(-n);
      assert Render(n)[1..] == Digits(-n);
    }
  }

  /** Every draw of `faker.number.int({min: 10^12, max: 10^13 - 1})` renders as
      a 13-character string of digits without a leading zero that reads back
      as the drawn number. */
  lemma ThirteenDigitRendering(n: int)
    requires Pow10(12) <= n <= Pow10(13) - 1
    ensures |Render(n)| == 13
    ensures AllDigits(Render(n))
    ensures Render(n)[0] != '0'
    ensures Value(Render(n)) == n
  {
    DigitsLength(n, 13);
    DigitsRoundTrip(n);
  }
}

=== FILE: expansion.dfy ===
/** The list of expanded rows, keyed by row position, and the update that
    clicking a row applies to it: a key already in the list is filtered out
    (every occurrence of it), any other key is appended at the end. */
module Expansion {

  /** `prev.filter((i) => i !== k)`: the list without any occurrence of `k`,
      the rest in their original order. */
  function RemoveAll(xs: seq<int>, k: int): (r: seq<int>)
    ensures k !in r
    ensures forall x :: x != k ==> (x in r <==> x in xs)
    ensures |r| <= |xs|
  {
    if |xs| == 0 then []
    else (if xs[0] == k then [] else [xs[0]]) + RemoveAll(xs[1..], k)
  }

  /** The row updater: `prev.includes(k) ? prev.filter(…) : [...prev, k]`. */
  function Toggle(xs: seq<int>, k: int): (r: seq<int>)
    ensures k in r <==> k !in xs
    ensures forall x :: x != k ==> (x in r <==> x in xs)
    ensures k !in xs ==> |r| == |xs| + 1 && r[|xs|] == k
  {
    if k in xs then RemoveAll(xs, k) else xs + [k]
  }

  /** No key occurs twice. */
  predicate NoDups(xs: seq<int>) {
    forall i, j :: 0 <= i < j < |xs| ==> xs[i] != xs[j]
  }

  /** Filtering distributes over concatenation, so it keeps the order of the
      elements it keeps. */
  lemma {:induction false} RemoveAllAppend(a: seq<int>, b: seq<int>, k: int)
    ensures RemoveAll(a + b, k) == RemoveAll(a, k) + RemoveAll(b, k)
    decreases |a|
  {
    if |a| == 0 {
      assert a + b == b;
    } else {
      assert (a + b)[1..] == a[1..] + b;
      RemoveAllAppend(a[1..], b, k);
    }
  }

  /** Filtering out a key that is not there changes nothing. */
  lemma {:induction false} RemoveAllAbsent(xs: seq<int>, k: int)
    requires k !in xs
    ensures RemoveAll(xs, k) == xs
    decreases |xs|
  {
    if |xs| > 0 {
      RemoveAllAbsent(xs[1..], k);
    }
  }

  /** Filtering out `k` removes all its occurrences and keeps every other
      element as often as it was there. */
  lemma {:induction false} RemoveAllCounts(xs: seq<int>, k: int)
    ensures multiset(RemoveAll(xs, k)) == multiset(xs)[k := 0]
    decreases |xs|
  {
    if |xs| > 0 {
      assert xs == [xs[0]] + xs[1..];
      RemoveAllCounts(xs[1..], k);
    }
  }

  /** Filtering keeps a list free of duplicates. */
  lemma {:induction false} RemoveAllNoDups(xs: seq<int>, k: int)
    requires NoDups(xs)
    ensures NoDups(RemoveAll(xs, k))
    decreases |xs|
  {
    if |xs| > 0 {
      assert NoDups(xs[1..]);
      RemoveAllNoDups(xs[1..], k);
      assert xs[0] !in xs[1..];
    }
  }

  /** Toggling touches only `k`: with `k` filtered out, the list before and
      after is the same, in the same order and with the same repetitions. */
  lemma ToggleOthersUnchanged(xs: seq<int>, k: int)
    ensures RemoveAll(Toggle(xs, k), k) == RemoveAll(xs, k)
  {
    if k in xs {
      RemoveAllAbsent(RemoveAll(xs, k), k);
    } else {
      RemoveAllAppend(xs, [k], k);
      assert RemoveAll([k], k) == [];
    }
  }

  /** A list without duplicates stays without duplicates. */
  lemma ToggleKeepsNoDups(xs: seq<int>, k: int)
    requires NoDups(xs)
    ensures NoDups(Toggle(xs, k))
  {
    if k in xs {
      RemoveAllNoDups(xs, k);
    }
  }

  /** Toggling the same key twice restores which keys are expanded. */
  lemma ToggleTwiceMembership(xs: seq<int>, k: int)
    ensures forall x :: x in Toggle(Toggle(xs, k), k) <==> x in xs
  {
  }

  /** Toggling the same key twice restores the list itself exactly when the
      key was absent, or occurred once, as the last element: otherwise its
      occurrences are moved to the end, or merged into one. */
  lemma ToggleTwiceIdentity(xs: seq<int>, k: int)
    ensures Toggle(Toggle(xs, k), k) == xs
      <==> k !in xs || (xs[|xs| - 1] == k && k !in xs[..|xs| - 1])
  {
    if k !in xs {
      RemoveAllAppend(xs, [k], k);
      assert RemoveAll([k], k) == [];
      RemoveAllAbsent(xs, k);
    } else {
      var front := xs[..|xs| - 1];
      var r := RemoveAll(xs, k);
      assert Toggle(Toggle(xs, k), k) == r + [k];
      if xs[|xs| - 1] == k && k !in front {
        assert xs == front + [k];
        RemoveAllAppend(front, [k], k);
        assert RemoveAll([k], k) == [];
        RemoveAllAbsent(front, k);
      }
    }
  }

  /** The expanded rows after clicking the keys `ks` in turn, from `xs`. */
  function ToggleAll(xs: seq<int>, ks: seq<int>): (r: seq<int>)
    ensures forall x :: x !in ks ==> (x in r <==> x in xs)
  {
    if |ks| == 0 then xs else Toggle(ToggleAll(xs, ks[..|ks| - 1]), ks[|ks| - 1])
  }

  /** From the initial empty list, a row is expanded exactly when it has been
      clicked an odd number of times, and no row is listed twice. */
  lemma {:induction false} ClicksFromEmpty(ks: seq<int>)
    ensures NoDups(ToggleAll([], ks))
    ensures forall x :: x in ToggleAll([], ks) <==> multiset(ks)[x] % 2 == 1
  {
    if |ks| > 0 {
      var front := ks[..|ks| - 1];
      var k := ks[|ks| - 1];
      ClicksFromEmpty(front);
      ToggleKeepsNoDups(ToggleAll([], front), k);
      assert ks == front + [k];
      assert multiset(ks) == multiset(front) + multiset{k};
    }
  }
}

=== FILE: jsmath.dfy ===
/** The JavaScript number operations generateBooks applies to the likes and
    reviews means, written out over `real`: `Math.floor`, `Math.ceil` and the
    remainder `x % 1`, whose sign follows the dividend. */
module JsMath {

  /** True if `x` has no fractional part. */
  predicate IsIntegral(x: real) {
    x == x.Floor as real
  }

  /** `Math.floor(x)`: the greatest integer not above `x`. */
  function Floor(x: real): (r: int)
    ensures r as real <= x < r as real + 1.0
  {
    x.Floor
  }

  /** `Math.ceil(x)`: the least integer not below `x`. */
  function Ceil(x: real): (r: int)
    ensures r as real - 1.0 < x <= r as real
    ensures r == Floor(x) || r == Floor(x) + 1
    ensures r == Floor(x) <==> IsIntegral(x)
  {
    -((-x).Floor)
  }

  /** `x % 1` on JavaScript numbers: the fractional part, carrying the sign of `x`. */
  function Rem1(x: real): (r: real)
    ensures x >= 0.0 ==> 0.0 <= r < 1.0 && r == x - Floor(x) as real
    ensures x < 0.0 ==> -1.0 < r <= 0.0
    ensures r == 0.0 <==> IsIntegral(x)
    ensures IsIntegral(x - r)
  {
    // JavaScript's `%` removes the integer part truncated toward zero.
    x - (if x >= 0.0 then Floor(x) else Ceil(x)) as real
  }
}

=== FILE: pages.dfy ===
/** Properties of generated pages and of the catalogue the bookstore shows:
    per-record bounds, the order in which the faker stream is consumed, the
    effect of seed and page on the content, and where the unseeded
    `Math.random()` makes content depend on more than the seed. */
module Pages {
  import opened JsMath
  import opened Decimal
  import opened Books

  /** Review `t` of a run drawn from position `p` is drawn at `p + 2 * t`. */
  lemma {:induction false} ReviewsFromAt(f: Faker, lang: string, s: int, p: nat, n: nat, t: nat)
    requires t < n
    ensures ReviewsFrom(f, lang, s, p, n)[t] == DrawReview(f, lang, s, p + 2 * t)
  {
    if t < n - 1 {
      ReviewsFromAt(f, lang, s, p, n - 1, t);
    }
  }

  /** Record `j` of the first `n` is `BookAt(j)`. */
  lemma {:induction false} FirstBooksAt(
    f: Faker, lang: string, s: int, page: int, outlines: seq<Outline>, n: nat, j: nat)
    requires j < n <= |outlines|
    ensures FirstBooks(f, lang, s, page, outlines, n)[j] == BookAt(f, lang, s, page, outlines, j)
  {
    if j < n - 1 {
      FirstBooksAt(f, lang, s, page, outlines, n - 1, j);
    }
  }

  /** Adding record `j` to the records before it adds the calls `j` makes. */
  lemma CallsOfPrefix(books: seq<Book>, j: nat)
    requires j < |books|
    ensures CallsOf(books[..j + 1]) == CallsOf(books[..j]) + |RecordCalls(|books[j].reviews|)|
  {
    assert books[..j + 1][..j] == books[..j];
  }

  /** The faker calls the first `j` records make end where record `j` starts. */
  lemma {:induction false} CallsBefore(
    f: Faker, lang: string, s: int, page: int, outlines: seq<Outline>, n: nat, j: nat)
    requires j <= n <= |outlines| && Chained(outlines)
    ensures CallsOf(FirstBooks(f, lang, s, page, outlines, n)[..j]) == StartOf(outlines, j)
  {
    if j > 0 {
      var books := FirstBooks(f, lang, s, page, outlines, n);
      CallsBefore(f, lang, s, page, outlines, n, j - 1);
      CallsOfPrefix(books, j - 1);
      FirstBooksAt(f, lang, s, page, outlines, n, j - 1);
    }
  }

  /** Record `j` of a page: drawn from where the records before it stopped,
      with the review count and likes its outline gives. */
  lemma PageAt(f: Faker, rnd: RandomStream, s: int, lang: string, page: int, likes: real, reviews: real, j: nat)
    requires j < BooksPerPage
    ensures var outlines := Outlines(rnd, likes, reviews, BooksPerPage);
      && |Page(f, rnd, s, lang, page, likes, reviews)| == BooksPerPage
      && outlines[j] == OutlineAt(rnd, likes, reviews, j, StartOf(outlines, j))
      && Page(f, rnd, s, lang, page, likes, reviews)[j]
         == MakeBook(f, lang, s, j + 1 + page * BooksPerPage, outlines[j].start,
                     outlines[j].count, outlines[j].likes)
  {
    FirstBooksAt(f, lang, s, page, Outlines(rnd, likes, reviews, BooksPerPage), BooksPerPage, j);
    OutlinesAt(rnd, likes, reviews, BooksPerPage, j);
  }

  /** Twenty records; record `j` of page `page` has index `j + 1 + 20 * page`;
      its likes are the floor or the ceiling of the likes mean (exactly the
      mean when that is whole); its review count is the floor of the reviews
      mean, or one more when the mean is fractional, and zero when the mean
      is not positive. */
  lemma PageBounds(f: Faker, rnd: RandomStream, s: int, lang: string, page: int, likes: real, reviews: real)
    ensures |Page(f, rnd, s, lang, page, likes, reviews)| == BooksPerPage
    ensures forall j :: 0 <= j < BooksPerPage ==>
      var b := Page(f, rnd, s, lang, page, likes, reviews)[j];
      && b.index == j + 1 + page * BooksPerPage
      && LikesAllowed(b.likes, likes)
      && (IsIntegral(likes) ==> b.likes as real == likes)
      && ReviewCountAllowed(|b.reviews|, reviews)
      && (reviews > 0.0 && IsIntegral(reviews) ==> |b.reviews| == Floor(reviews))
  {
    forall j | 0 <= j < BooksPerPage
      ensures var b := Page(f, rnd, s, lang, page, likes, reviews)[j];
      && b.index == j + 1 + page * BooksPerPage
      && LikesAllowed(b.likes, likes)
      && (IsIntegral(likes) ==> b.likes as real == likes)
      && ReviewCountAllowed(|b.reviews|, reviews)
      && (reviews > 0.0 && IsIntegral(reviews) ==> |b.reviews| == Floor(reviews))
    {
      PageAt(f, rnd, s, lang, page, likes, reviews, j);
    }
  }

  /** Running two plans one after the other draws what running their
      concatenation draws. */
  lemma {:induction false} DrawsAppend(f: Faker, lang: string, s: int, p: nat, a: seq<Call>, b: seq<Call>)
    ensures Draws(f, lang, s, p, a + b) == Draws(f, lang, s, p, a) + Draws(f, lang, s, p + |a|, b)
    decreases |b|
  {
    if |b| == 0 {
      assert a + b == a;
    } else {
      var front := b[..|b| - 1];
      DrawsAppend(f, lang, s, p, a, front);
      assert (a + b)[..|a + b| - 1] == a + front;
    }
  }

  /** The draws of a plan of two calls. */
  lemma DrawsPair(f: Faker, lang: string, s: int, p: nat, c0: Call, c1: Call)
    ensures Draws(f, lang, s, p, [c0, c1]) == [Draw(f, lang, s, p, c0), Draw(f, lang, s, p + 1, c1)]
  {
    assert [c0, c1][..1] == [c0];
    assert [c0][..0] == [];
  }

  /** The last of `n` reviews drawn from `q` on holds the values of the
      reviewer and text calls made at `q + 2 * (n - 1)`. */
  lemma ReviewFieldsStep(f: Faker, lang: string, s: int, q: nat, n: nat)
    requires n > 0
    ensures ReviewFields(ReviewsFrom(f, lang, s, q, n))
         == ReviewFields(ReviewsFrom(f, lang, s, q, n - 1)) + Draws(f, lang, s, q + 2 * (n - 1), [FullName, Sentence])
  {
    var before := ReviewsFrom(f, lang, s, q, n - 1);
    var last := DrawReview(f, lang, s, q + 2 * (n - 1));
    calc {
      ReviewFields(ReviewsFrom(f, lang, s, q, n));
      ReviewFields(before + [last]);
      { assert (before + [last])[..n - 1] == before; }
      ReviewFields(before) + [last.reviewer, last.text];
      { DrawsPair(f, lang, s, q + 2 * (n - 1), FullName, Sentence); }
      ReviewFields(before) + Draws(f, lang, s, q + 2 * (n - 1), [FullName, Sentence]);
    }
  }

  /** The reviews drawn from position `q` on hold the values of the review calls made from `q` on. */
  lemma {:induction false} ReviewsDrawn(f: Faker, lang: string, s: int, q: nat, n: nat)
    ensures ReviewFields(ReviewsFrom(f, lang, s, q, n)) == Draws(f, lang, s, q, ReviewCalls(n))
  {
    if n > 0 {
      var tail := Draws(f, lang, s, q + 2 * (n - 1), [FullName, Sentence]);
      calc {
        ReviewFields(ReviewsFrom(f, lang, s, q, n));
        { ReviewFieldsStep(f, lang, s, q, n); }
        ReviewFields(ReviewsFrom(f, lang, s, q, n - 1)) + tail;
        { ReviewsDrawn(f, lang, s, q, n - 1); }
        Draws(f, lang, s, q, ReviewCalls(n - 1)) + tail;
        { DrawsAppend(f, lang, s, q, ReviewCalls(n - 1), [FullName, Sentence]); }
        Draws(f, lang, s, q, ReviewCalls(n - 1) + [FullName, Sentence]);
      }
    }
  }

  /** The draws of the four calls that open a record. */
  lemma HeadDraws(f: Faker, lang: string, s: int, p: nat)
    ensures Draws(f, lang, s, p, [ProductName, FullName, CompanyName, IsbnNumber])
         == [f.text(lang, s, p, ProductName), f.text(lang, s, p + 1, FullName),
             f.text(lang, s, p + 2, CompanyName), Render(f.number(lang, s, p + 3))]
  {
    DrawsAppend(f, lang, s, p, [ProductName, FullName], [CompanyName, IsbnNumber]);
    assert [ProductName, FullName] + [CompanyName, IsbnNumber] == [ProductName, FullName, CompanyName, IsbnNumber];
    DrawsPair(f, lang, s, p, ProductName, FullName);
    DrawsPair(f, lang, s, p + 2, CompanyName, IsbnNumber);
  }

  /** A record built from position `p` holds the values of its calls, in the order `RecordCalls`. */
  lemma MakeBookDrawn(f: Faker, lang: string, s: int, index: int, p: nat, n: nat, likes: int)
    ensures DrawnAt(f, lang, s, p, MakeBook(f, lang, s, index, p, n, likes))
  {
    DrawsAppend(f, lang, s, p, [ProductName, FullName, CompanyName, IsbnNumber], ReviewCalls(n));
    HeadDraws(f, lang, s, p);
    ReviewsDrawn(f, lang, s, p + 4, n);
  }

  /** Record `j` of chained records draws its fields right after the calls
      of the records before it. */
  lemma FirstBooksDrawn(f: Faker, lang: string, s: int, page: int, outlines: seq<Outline>, n: nat, j: nat)
    requires j < n <= |outlines| && Chained(outlines)
    ensures var books := FirstBooks(f, lang, s, page, outlines, n);
      DrawnAt(f, lang, s, CallsOf(books[..j]), books[j])
  {
    var books := FirstBooks(f, lang, s, page, outlines, n);
    var b := MakeBook(f, lang, s, j + 1 + page * BooksPerPage, outlines[j].start, outlines[j].count, outlines[j].likes);
    FirstBooksAt(f, lang, s, page, outlines, n, j);
    assert books[j] == b;
    CallsBefore(f, lang, s, page, outlines, n, j);
    assert CallsOf(books[..j]) == outlines[j].start;
    MakeBookDrawn(f, lang, s, j + 1 + page * BooksPerPage, outlines[j].start, outlines[j].count, outlines[j].likes);
  }

  /** The faker stream seeded with `s` is consumed record after
      record: record `j` draws its title, author, publisher, ISBN and reviews
      at consecutive positions, starting right after the calls of the records
      before it. */
  lemma PageDrawOrder(f: Faker, rnd: RandomStream, s: int, lang: string, page: int, likes: real, reviews: real)
    ensures var books := Page(f, rnd, s, lang, page, likes, reviews);
      forall j :: 0 <= j < |books| ==>
        DrawnAt(f, lang, s, CallsOf(books[..j]), books[j])
  {
    var books := Page(f, rnd, s, lang, page, likes, reviews);
    forall j | 0 <= j < |books|
      ensures DrawnAt(f, lang, s, CallsOf(books[..j]), books[j])
    {
      OutlinesChained(rnd, likes, reviews, BooksPerPage);
      FirstBooksDrawn(f, lang, s, page, Outlines(rnd, likes, reviews, BooksPerPage), BooksPerPage, j);
    }
  }

  /** The ISBN bounds are the 13-digit numbers. */
  lemma IsbnRange()
    ensures IsbnMin == Pow10(12) && IsbnMax == Pow10(13) - 1
  {
  }

  /** When faker's number draws stay within the bounds they are asked for,
      every ISBN of a page is a 13-digit decimal string without a leading
      zero, and it reads back as a number within those bounds. */
  lemma PageIsbns(f: Faker, rnd: RandomStream, s: int, lang: string, page: int, likes: real, reviews: real)
    requires forall n: nat :: IsbnMin <= f.number(lang, s, n) <= IsbnMax
    ensures forall b :: b in Page(f, rnd, s, lang, page, likes, reviews) ==>
      && |b.isbn| == 13 && AllDigits(b.isbn) && b.isbn[0] != '0'
      && IsbnMin <= Value(b.isbn) <= IsbnMax
  {
    var books := Page(f, rnd, s, lang, page, likes, reviews);
    forall b | b in books
      ensures |b.isbn| == 13 && AllDigits(b.isbn) && b.isbn[0] != '0' && IsbnMin <= Value(b.isbn) <= IsbnMax
    {
      var j :| 0 <= j < |books| && books[j] == b;
      PageIsbn(f, rnd, s, lang, page, likes, reviews, j);
    }
  }

  /** The ISBN of record `j` is the rendering of a faker number draw. */
  lemma PageIsbn(f: Faker, rnd: RandomStream, s: int, lang: string, page: int, likes: real, reviews: real, j: nat)
    requires forall n: nat :: IsbnMin <= f.number(lang, s, n) <= IsbnMax
    requires j < BooksPerPage
    ensures var b := Page(f, rnd, s, lang, page, likes, reviews)[j];
      && |b.isbn| == 13 && AllDigits(b.isbn) && b.isbn[0] != '0'
      && IsbnMin <= Value(b.isbn) <= IsbnMax
  {
    var outlines := Outlines(rnd, likes, reviews, BooksPerPage);
    FirstBooksAt(f, lang, s, page, outlines, BooksPerPage, j);
    var n := f.number(lang, s, outlines[j].start + 3);
    IsbnRange();
    ThirteenDigitRendering(n);
  }

  /** Everything in a record except its index and its likes. */
  predicate SameContent(a: Book, b: Book) {
    a.isbn == b.isbn && a.title == b.title && a.author == b.author
    && a.publisher == b.publisher && a.reviews == b.reviews
  }

  /** When the reviews mean is whole or not positive, the review counts, and
      so every faker position, do not depend on `Math.random()`. */
  lemma {:induction false} OutlinesIgnoreRandom(
    rnd1: RandomStream, rnd2: RandomStream, likes1: real, likes2: real, reviews: real, n: nat, j: nat)
    requires !Fractional(reviews) && j < n
    ensures Outlines(rnd1, likes1, reviews, n)[j].start == Outlines(rnd2, likes2, reviews, n)[j].start
    ensures Outlines(rnd1, likes1, reviews, n)[j].count == Outlines(rnd2, likes2, reviews, n)[j].count
  {
    OutlinesAt(rnd1, likes1, reviews, n, j);
    OutlinesAt(rnd2, likes2, reviews, n, j);
    if j > 0 {
      OutlinesIgnoreRandom(rnd1, rnd2, likes1, likes2, reviews, n, j - 1);
    }
  }

  /** Records drawn from the same faker positions with the same review count
      differ at most in index and likes. */
  lemma SameDrawsSameContent(
    f: Faker, lang: string, s: int, index1: int, index2: int, p: nat, n: nat, likes1: int, likes2: int)
    ensures SameContent(MakeBook(f, lang, s, index1, p, n, likes1), MakeBook(f, lang, s, index2, p, n, likes2))
  {
  }

  /** Record `j` of two pages drawn from the same faker stream. */
  lemma {:induction false} SameStreamRecord(
    f: Faker, rnd1: RandomStream, rnd2: RandomStream, s: int, lang: string,
    page1: int, page2: int, likes1: real, likes2: real, reviews: real, j: nat)
    requires !Fractional(reviews) && j < BooksPerPage
    ensures var a := Page(f, rnd1, s, lang, page1, likes1, reviews)[j];
      var b := Page(f, rnd2, s, lang, page2, likes2, reviews)[j];
      SameContent(a, b) && a.index - b.index == (page1 - page2) * BooksPerPage
  {
    var o1 := Outlines(rnd1, likes1, reviews, BooksPerPage);
    var o2 := Outlines(rnd2, likes2, reviews, BooksPerPage);
    var a := Page(f, rnd1, s, lang, page1, likes1, reviews)[j];
    var b := Page(f, rnd2, s, lang, page2, likes2, reviews)[j];
    var index1, index2 := j + 1 + page1 * BooksPerPage, j + 1 + page2 * BooksPerPage;
    assert a == MakeBook(f, lang, s, index1, o1[j].start, o1[j].count, o1[j].likes) by {
      FirstBooksAt(f, lang, s, page1, o1, BooksPerPage, j);
    }
    assert b == MakeBook(f, lang, s, index2, o1[j].start, o1[j].count, o2[j].likes) by {
      FirstBooksAt(f, lang, s, page2, o2, BooksPerPage, j);
      OutlinesIgnoreRandom(rnd1, rnd2, likes1, likes2, reviews, BooksPerPage, j);
    }
    SameDrawsSameContent(f, lang, s, index1, index2, o1[j].start, o1[j].count, o1[j].likes, o2[j].likes);
    assert index1 - index2 == (page1 - page2) * BooksPerPage;
  }

  /** Two pages drawn from the same faker stream, whatever their page numbers
      and `Math.random()` values, hold the same content record by record when
      the reviews mean is whole or not positive; their indices differ by
      twenty per page. */
  lemma SameStreamSameContent(
    f: Faker, rnd1: RandomStream, rnd2: RandomStream, s: int, lang: string,
    page1: int, page2: int, likes1: real, likes2: real, reviews: real)
    requires !Fractional(reviews)
    ensures forall j :: 0 <= j < BooksPerPage ==>
      var a := Page(f, rnd1, s, lang, page1, likes1, reviews)[j];
      var b := Page(f, rnd2, s, lang, page2, likes2, reviews)[j];
      SameContent(a, b) && a.index - b.index == (page1 - page2) * BooksPerPage
  {
    forall j | 0 <= j < BooksPerPage
      ensures var a := Page(f, rnd1, s, lang, page1, likes1, reviews)[j];
        var b := Page(f, rnd2, s, lang, page2, likes2, reviews)[j];
        SameContent(a, b) && a.index - b.index == (page1 - page2) * BooksPerPage
    {
      SameStreamRecord(f, rnd1, rnd2, s, lang, page1, page2, likes1, likes2, reviews, j);
    }
  }

  /** With the same `Math.random()` values, two pages drawn from the same
      faker stream are equal except for their indices. */
  lemma SameStreamSameRandom(
    f: Faker, rnd: RandomStream, s: int, lang: string, page1: int, page2: int, likes: real, reviews: real)
    ensures forall j :: 0 <= j < BooksPerPage ==>
      Page(f, rnd, s, lang, page1, likes, reviews)[j]
      == Page(f, rnd, s, lang, page2, likes, reviews)[j].(index := j + 1 + page1 * BooksPerPage)
  {
    forall j | 0 <= j < BooksPerPage
      ensures Page(f, rnd, s, lang, page1, likes, reviews)[j]
           == Page(f, rnd, s, lang, page2, likes, reviews)[j].(index := j + 1 + page1 * BooksPerPage)
    {
      FirstBooksAt(f, lang, s, page1, Outlines(rnd, likes, reviews, BooksPerPage), BooksPerPage, j);
      FirstBooksAt(f, lang, s, page2, Outlines(rnd, likes, reviews, BooksPerPage), BooksPerPage, j);
    }
  }

  /** `generateBooks(seed, …, page, …)` and `generateBooks(seed + 1, …, page - 1, …)`
      seed faker identically, so when the reviews mean is whole or not
      positive they return the same titles, authors, publishers, ISBNs and
      reviews, with indices twenty apart. */
  lemma SeedPageShift(
    f: Faker, rnd1: RandomStream, rnd2: RandomStream, seed: int, lang: string, page: int, likes: real, reviews: real)
    requires !Fractional(reviews)
    ensures var later := Page(f, rnd1, seed + page, lang, page, likes, reviews);
      var earlier := Page(f, rnd2, (seed + 1) + (page - 1), lang, page - 1, likes, reviews);
      forall j :: 0 <= j < BooksPerPage ==>
        SameContent(later[j], earlier[j]) && later[j].index == earlier[j].index + BooksPerPage
  {
    var s := seed + page;
    assert (seed + 1) + (page - 1) == s;
    SameStreamSameContent(f, rnd1, rnd2, s, lang, page, page - 1, likes, likes, reviews);
  }

  /** A `Math.random()` stream that always returns `v`. */
  function ConstantStream(v: RandomValue): RandomStream {
    (n: nat) => v
  }

  /** The first record starts at faker position 0, and the second one right
      after the first record's draws. */
  lemma FirstTwoOutlines(rnd: RandomStream, likes: real, reviews: real)
    ensures var o := Outlines(rnd, likes, reviews, BooksPerPage);
      && o[0].start == 0 && o[0].count == ReviewCount(reviews, rnd(0))
      && o[1].start == 4 + 2 * o[0].count
  {
    OutlinesAt(rnd, likes, reviews, BooksPerPage, 0);
    OutlinesAt(rnd, likes, reviews, BooksPerPage, 1);
  }

  /** With `Math.random()` constantly `v`, the first record gets `n` reviews,
      where `n` is the count `v` decides, and the second record's title is
      drawn right after them. */
  lemma FirstTwoRecords(f: Faker, v: RandomValue, s: int, lang: string, page: int, likes: real, reviews: real, n: nat)
    requires ReviewCount(reviews, v) == n
    ensures var books := Page(f, ConstantStream(v), s, lang, page, likes, reviews);
      && |books[0].reviews| == n
      && books[1].title == f.text(lang, s, 4 + 2 * n, ProductName)
  {
    FirstTwoOutlines(ConstantStream(v), likes, reviews);
    PageAt(f, ConstantStream(v), s, lang, page, likes, reviews, 0);
    PageAt(f, ConstantStream(v), s, lang, page, likes, reviews, 1);
  }

  /** With a fractional reviews mean, a `Math.random()` value of zero adds the
      extra review and a value at the fraction does not. */
  lemma ExtremeCoins(reviews: real)
    requires Fractional(reviews)
    ensures ReviewCount(reviews, 0.0) == Floor(reviews) + 1
    ensures ReviewCount(reviews, Rem1(reviews)) == Floor(reviews)
  {
  }

  /** When the reviews mean is fractional, the seed does not determine the
      content: a `Math.random()` value below the fraction gives the first
      record an extra review, which moves every later faker draw by two, so
      the second record's title is drawn at a different position. */
  lemma ExtraReviewDependsOnRandom(f: Faker, s: int, lang: string, page: int, likes: real, reviews: real)
    requires Fractional(reviews)
    ensures var lucky := Page(f, ConstantStream(0.0), s, lang, page, likes, reviews);
      var unlucky := Page(f, ConstantStream(Rem1(reviews)), s, lang, page, likes, reviews);
      && |lucky[0].reviews| == Floor(reviews) + 1
      && |unlucky[0].reviews| == Floor(reviews)
      && lucky[1].title == f.text(lang, s, 6 + 2 * Floor(reviews), ProductName)
      && unlucky[1].title == f.text(lang, s, 4 + 2 * Floor(reviews), ProductName)
  {
    ExtremeCoins(reviews);
    FirstTwoRecords(f, 0.0, s, lang, page, likes, reviews, Floor(reviews) + 1);
    FirstTwoRecords(f, Rem1(reviews), s, lang, page, likes, reviews, Floor(reviews));
  }

  /** Whenever the likes mean is positive and not whole, the likes of a record
      depend on `Math.random()`: its ceiling for a small value, its floor for
      a value at the fraction. */
  lemma LikesDependOnRandom(f: Faker, s: int, lang: string, page: int, likes: real, reviews: real, j: nat)
    requires likes > 0.0 && !IsIntegral(likes) && j < BooksPerPage
    ensures Page(f, ConstantStream(0.0), s, lang, page, likes, reviews)[j].likes == Ceil(likes)
    ensures Page(f, ConstantStream(Rem1(likes)), s, lang, page, likes, reviews)[j].likes == Floor(likes)
  {
    var ceilStream := ConstantStream(0.0);
    var floorStream := ConstantStream(Rem1(likes));
    PageAt(f, ceilStream, s, lang, page, likes, reviews, j);
    PageAt(f, floorStream, s, lang, page, likes, reviews, j);
    OutlinesAt(ceilStream, likes, reviews, BooksPerPage, j);
    OutlinesAt(floorStream, likes, reviews, BooksPerPage, j);
  }


  /** Pages `0..k` of one seed, concatenated in page order as `loadBooks`
      appends them; every load calls `Math.random()` afresh, so load `p`
      reads the stream `rnds(p)`. */
  function PagesUpTo(
    f: Faker, rnds: nat -> RandomStream, seed: int, lang: string, likes: real, reviews: real, k: nat)
    : (books: seq<Book>)
    ensures |books| >= BooksPerPage
    ensures books[|books| - BooksPerPage..] == Page(f, rnds(k), seed + k, lang, k, likes, reviews)
  {
    LoadIsPage(f, rnds, seed, lang, likes, reviews, k);
    Accumulated(Load(f, rnds, seed, lang, likes, reviews), k)
  }

  /** Load `p` of one seed: page `p`, drawn with stream seed `seed + p` and
      the `Math.random()` values `rnds(p)`. */
  function Load(f: Faker, rnds: nat -> RandomStream, seed: int, lang: string, likes: real, reviews: real)
    : nat -> seq<Book>
  {
    (p: nat) => Page(f, rnds(p), seed + p, lang, p, likes, reviews)
  }

  /** Load `p` is page `p`, twenty records long. */
  lemma LoadIsPage(f: Faker, rnds: nat -> RandomStream, seed: int, lang: string, likes: real, reviews: real, p: nat)
    ensures Load(f, rnds, seed, lang, likes, reviews)(p) == Page(f, rnds(p), seed + p, lang, p, likes, reviews)
    ensures |Load(f, rnds, seed, lang, likes, reviews)(p)| == BooksPerPage
  {
  }

  /** Loads `0..k` appended one after another. */
  function Accumulated(load: nat -> seq<Book>, k: nat): (books: seq<Book>)
    ensures |books| >= |load(k)| && books[|books| - |load(k)|..] == load(k)
  {
    if k == 0 then load(0) else Accumulated(load, k - 1) + load(k)
  }

  /** Loading page `k` leaves the records of pages `0..k-1` as they were,
      in front. */
  lemma PagesUpToExtends(
    f: Faker, rnds: nat -> RandomStream, seed: int, lang: string, likes: real, reviews: real, k: nat)
    requires k > 0
    ensures PagesUpTo(f, rnds, seed, lang, likes, reviews, k - 1) <= PagesUpTo(f, rnds, seed, lang, likes, reviews, k)
  {
    var load := Load(f, rnds, seed, lang, likes, reviews);
    var before := Accumulated(load, k - 1);
    assert PagesUpTo(f, rnds, seed, lang, likes, reviews, k) == before + load(k);
    assert PagesUpTo(f, rnds, seed, lang, likes, reviews, k - 1) == before;
  }

  /** The records' indices count up by one from `first`. */
  predicate NumberedFrom(books: seq<Book>, first: int) {
    forall j :: 0 <= j < |books| ==> books[j].index == j + first
  }

  /** Twenty records per load, numbered on from the previous loads, add up
      to records numbered from 1 to `20 * (k + 1)`. */
  lemma {:induction false} AccumulatedIndices(load: nat -> seq<Book>, k: nat)
    requires forall p: nat :: p <= k ==> |load(p)| == BooksPerPage && NumberedFrom(load(p), BooksPerPage * p + 1)
    ensures |Accumulated(load, k)| == BooksPerPage * (k + 1) && NumberedFrom(Accumulated(load, k), 1)
  {
    if k > 0 {
      var before := Accumulated(load, k - 1);
      AccumulatedIndices(load, k - 1);
      assert |load(k)| == BooksPerPage && NumberedFrom(load(k), BooksPerPage * k + 1);
      NumberedAppend(before, load(k), k);
      assert Accumulated(load, k) == before + load(k);
    } else {
      assert Accumulated(load, 0) == load(0);
      assert |load(0)| == BooksPerPage && NumberedFrom(load(0), BooksPerPage * 0 + 1);
    }
  }

  /** Records numbered from 1 followed by a load numbered on from there are
      numbered from 1. */
  lemma NumberedAppend(before: seq<Book>, after: seq<Book>, k: nat)
    requires |before| == BooksPerPage * k && NumberedFrom(before, 1)
    requires |after| == BooksPerPage && NumberedFrom(after, BooksPerPage * k + 1)
    ensures |before + after| == BooksPerPage * (k + 1) && NumberedFrom(before + after, 1)
  {
    forall j | 0 <= j < |before + after|
      ensures (before + after)[j].index == j + 1
    {
      if j >= |before| {
        assert (before + after)[j] == after[j - |before|];
      }
    }
  }

  /** The indices of a page run from `20 * page + 1` to `20 * page + 20`. */
  lemma PageIndices(f: Faker, rnd: RandomStream, s: int, lang: string, page: int, likes: real, reviews: real)
    ensures var books := Page(f, rnd, s, lang, page, likes, reviews);
      |books| == BooksPerPage && NumberedFrom(books, BooksPerPage * page + 1)
  {
    var outlines := Outlines(rnd, likes, reviews, BooksPerPage);
    forall j | 0 <= j < BooksPerPage
      ensures Page(f, rnd, s, lang, page, likes, reviews)[j].index == j + BooksPerPage * page + 1
    {
      FirstBooksAt(f, lang, s, page, outlines, BooksPerPage, j);
    }
  }

  /** The indices of pages `0..k` run exactly from 1 to `20 * (k + 1)`, in
      order, without gaps or repeats. */
  lemma PagesUpToIndices(
    f: Faker, rnds: nat -> RandomStream, seed: int, lang: string, likes: real, reviews: real, k: nat)
    ensures var books := PagesUpTo(f, rnds, seed, lang, likes, reviews, k);
      |books| == BooksPerPage * (k + 1) && NumberedFrom(books, 1)
  {
    var load := Load(f, rnds, seed, lang, likes, reviews);
    forall p: nat | p <= k
      ensures |load(p)| == BooksPerPage && NumberedFrom(load(p), BooksPerPage * p + 1)
    {
      PageIndices(f, rnds(p), seed + p, lang, p, likes, reviews);
    }
    AccumulatedIndices(load, k);
  }
}
